=== FILE: README.md ===
# Client-side cache over IndexedDB, modelled in Dafny

This project models the generic client-side cache of the Mealie frontend
(`frontend/composables/partials/cache.ts`). It has three parts:

- **The version gate.** A static promise that every cache awaits before it
  opens its database. `Cache.setVersion` resolves it, and the first version
  supplied is the only one ever used.
- **`Cache<T>`.** A keyed cache over one IndexedDB object store. It has a
  database and a store, both named after the cache, and the store's key path
  is the cache's key field. The constructor opens the database at the gate's
  version. On an upgrade it deletes the store and recreates it empty. Until
  the connection exists, every operation is inert.
- **`MultiCache<T>`.** A cache that keeps a whole list as one envelope record,
  `{ key: "key", data }`, in an inner `Cache`. Only `setMultiple`, `getAll` and
  `fillAllRef` do anything.

The asynchronous readiness is written as explicit steps over immutable state,
not as promises. A gate goes from `Pending` to `Resolved(v)`. A cache's
connection goes from `Waiting` to either `Open(version, db)` or `Failed`. How
the open request ends is an `OpenEvent`: `Success`, `UpgradeNeeded` or
`Error`. Each storage request is one atomic step.

An object store is a list of records sorted by key, following the Indexed
Database API. `getAll` lists the values in that key order. `add` follows the
API's no-overwrite rule for storing a record: adding a key that is already
stored fails with `ConstraintError` and stores nothing. The model proves a
consequence of this for the cache: `set` never refreshes an entry that is
already cached, and a second `MultiCache.setMultiple` leaves the first list
in place (`Cache.SetNeverReplaces`, `MultiCache.SecondSetMultipleKeepsFirst`).

Modules, one per file:

| file | module | models |
|---|---|---|
| `wrappers.dfy` | `Wrappers` | `Option` (`undefined`/`null`) and `Result` |
| `key_order.dfy` | `KeyOrder` | the order of string keys, proved a strict total order |
| `object_store.dfy` | `ObjectStore` | records, `add`, a batch of `add`s in one transaction, the upgrade's delete-and-recreate |
| `version_gate.dfy` | `VersionGate` | the static version promise |
| `cache.dfy` | `Cache` | `Cache<T>`: the open sequence, `store`, `set`, `setMultiple`, `get`, `getAll`, `fillRef`, `fillAllRef` |
| `multi_cache.dfy` | `MultiCache` | `MultiCache<T>` and the `MultiCacheValue` envelope |
| `cache_system.dfy` | `CacheSystem` | the gate together with every cache constructed, as runs of steps |
| `scenarios.dfy` | `Scenarios` | the recipe cache before the version arrives, and the label cache after it |

Two consequences of the code's use of `add` shape the bulk operations:

- `MultiCache.setMultiple` writes the envelope with `add`, so a second call
  fails on the stored key `"key"` and the first list stays.
- A failing `add` anywhere in `Cache.setMultiple` goes unhandled, which aborts
  the whole transaction, so a batch is all or nothing: either every entry is
  stored or none is.

Records are objects, because a key path can only be evaluated on an object,
so a cached value is always truthy. An array is truthy even when empty. So
"the value is truthy" becomes `Some?`, and an available but empty keyed store
fills a null ref with `[]`.

## Model

| member | source | states |
|---|---|---|
| VersionGate.SupplyVersion | frontend/composables/partials/cache.ts:38-40 | after `setVersion` the gate is resolved: a pending gate takes the version given, and a resolved one keeps its version |
| VersionGate.FirstVersionWins | frontend/composables/partials/cache.ts:14-17 | over any sequence of `setVersion` calls the gate holds the first version supplied |
| VersionGate.SettledGateIgnoresSupply | frontend/composables/partials/cache.ts:38-40 | once the gate is resolved, no later `setVersion` changes or reverts it |
| ObjectStore.Insert | frontend/composables/partials/cache.ts:49 | a new record joins the store's records and every existing record stays |
| ObjectStore.InsertSorted | frontend/composables/partials/cache.ts:49 | inserting a key that is not yet stored keeps the records in ascending key order |
| ObjectStore.InsertValues | frontend/composables/partials/cache.ts:49 | inserting adds exactly the new value to the multiset of stored values |
| ObjectStore.FindInsert | frontend/composables/partials/cache.ts:49 | after inserting a fresh key, a lookup of that key finds the new value and a lookup of any other key is unchanged |
| ObjectStore.Add | frontend/composables/partials/cache.ts:49 | `add` fails with ConstraintError exactly when the key is already stored; otherwise the key gets exactly that record, every other key keeps its lookup result, order is kept, and the values gain exactly that one |
| ObjectStore.FindSorted | frontend/composables/partials/cache.ts:68-69 | in a sorted store, a lookup of a stored record's key returns that record |
| ObjectStore.AddAll | frontend/composables/partials/cache.ts:57-59 | a successful batch adds one record per entry, keeps the key path and keeps the records sorted |
| ObjectStore.AddAllSucceedsIff | frontend/composables/partials/cache.ts:57-59 | a batch succeeds exactly when its keys are pairwise distinct and none is stored yet |
| ObjectStore.AddAllBinds | frontend/composables/partials/cache.ts:57-59 | after a successful batch, each entry is what a lookup of its key returns |
| ObjectStore.AddAllKeepsOthers | frontend/composables/partials/cache.ts:57-59 | a successful batch leaves every key outside the batch as it was |
| ObjectStore.AddAllValues | frontend/composables/partials/cache.ts:57-59 | a successful batch adds exactly its entries to the multiset of stored values |
| ObjectStore.Upgrade | frontend/composables/partials/cache.ts:28-31 | the upgrade leaves the cache's store present and empty, with the given key path, and every other store unchanged |
| Cache.New | frontend/composables/partials/cache.ts:19-22 | a freshly constructed cache has no connection yet and its open is still to come (it is waiting on the gate): `get` of any key and `getAll` return undefined |
| Cache.Opened | frontend/composables/partials/cache.ts:21-36 | the open runs only after the gate resolves and only while `db` is unset. It opens at the gate's version, and a rejected version leaves `db` unset for good. A success sets `db` to the database as stored. An upgrade gives an open, empty store and keeps the other stores. An error leaves `db` unset for good. |
| Cache.Store | frontend/composables/partials/cache.ts:42-44 | the store is available exactly when the connection is open and its database holds the cache's store, and then it is that store; on a well-formed connection it is always available and sorted |
| Cache.Set | frontend/composables/partials/cache.ts:46-50 | without a store, or for a key already stored, nothing changes. Otherwise `get` of the key returns the record, and every other key reads as before. |
| Cache.SetMultiple | frontend/composables/partials/cache.ts:52-61 | without a store, or when a key repeats or is already stored, nothing changes; the connection stays well formed |
| Cache.Get | frontend/composables/partials/cache.ts:63-70 | undefined while the store is unavailable; a found value is the record stored under that key |
| Cache.GetAll | frontend/composables/partials/cache.ts:72-78 | undefined exactly when the store is unavailable; otherwise one value per stored record |
| Cache.FillRef | frontend/composables/partials/cache.ts:80-87 | a set ref is never changed. A value written during the lookup is never overwritten. Otherwise the ref receives the `get` result, which is the record stored under the key when there is one. |
| Cache.FillAllRef | frontend/composables/partials/cache.ts:89-99 | a null ref or a set ref is left alone. A value written during the lookup wins. Otherwise the ref receives the `getAll` result, so it is filled exactly when the store is available. |
| Cache.UnavailableStoreIsInert | frontend/composables/partials/cache.ts:42-99 | without a connection, `set` and `setMultiple` change nothing, `get` and `getAll` give undefined, and neither fill assigns a null ref |
| Cache.SetNeverReplaces | frontend/composables/partials/cache.ts:46-50 | once a key is stored, a later `set` with the same key leaves the first record in place |
| Cache.GetAllAgreesWithGet | frontend/composables/partials/cache.ts:63-78 | `getAll` lists, in ascending key order, exactly the records that `get` finds: each listed value is what `get` returns for its key, and each value `get` finds is listed |
| Cache.SetMultipleStoresBatch | frontend/composables/partials/cache.ts:52-61 | a batch with distinct, fresh keys makes each entry readable under its key, keeps other keys as they were, and adds exactly the batch to the `getAll` multiset |
| Cache.SetMultipleThenGetAll | frontend/composables/partials/cache.ts:52-78 | on an available empty store, `setMultiple` of distinct keys then `getAll` returns exactly those entries, as a multiset |
| Cache.SetMultipleAllOrNothing | frontend/composables/partials/cache.ts:52-61 | a batch that repeats a key stores nothing |
| Cache.FillRefIdempotent | frontend/composables/partials/cache.ts:80-87 | a second `fillRef` with no competing write leaves the ref as the first one left it |
| Cache.FillAllRefIdempotent | frontend/composables/partials/cache.ts:89-99 | a second `fillAllRef` with no competing write leaves the ref as the first one left it |
| MultiCache.New | frontend/composables/partials/cache.ts:112-116 | the multi-cache and its inner cache have the given name, the inner key path is `key`, the inner open is still to come, and `getAll` gives undefined |
| MultiCache.Opened | frontend/composables/partials/cache.ts:21-36 | the inner open runs only after the gate resolves, and opens only at the gate's version when that version is valid; a rejected version leaves the inner `db` unset for good. A success sets the inner `db` to the database as stored. An upgrade leaves an available store with no envelope, so `getAll` gives undefined. An error leaves the inner `db` unset for good. Until the inner cache is open, `getAll` gives undefined. |
| MultiCache.SetMultiple | frontend/composables/partials/cache.ts:122-124 | with a store and no envelope yet, `getAll` afterwards returns the list given. With no store, or with an envelope already stored, nothing changes. The inner connection stays well formed. |
| MultiCache.GetAll | frontend/composables/partials/cache.ts:126-131 | a list is returned exactly when an envelope is stored under `"key"`, and it is that envelope's data |
| MultiCache.FillAllRef | frontend/composables/partials/cache.ts:133-139 | a null or set ref is left alone, a value written during the lookup wins, and otherwise the ref receives `getAll` |
| MultiCache.PerKeyOperationsAreInert | frontend/composables/partials/cache.ts:118-120 | `set` changes nothing, `get` gives undefined, `fillRef` leaves the ref as it is, in every state; this row stands for `MultiCache.Set`, `MultiCache.Get` and `MultiCache.FillRef`, whose whole behaviour it states |
| MultiCache.EnvelopeRoundTrip | frontend/composables/partials/cache.ts:122-131 | with a store and no envelope yet, `setMultiple(xs)` then `getAll` returns `xs` |
| MultiCache.SecondSetMultipleKeepsFirst | frontend/composables/partials/cache.ts:122-124 | a second `setMultiple` fails on the stored key `"key"` and `getAll` still returns the first list |
| MultiCache.FillAllRefWithoutEnvelope | frontend/composables/partials/cache.ts:133-139 | with no envelope stored, `fillAllRef` leaves a null ref null |
| MultiCache.EmptyListFillsRef | frontend/composables/partials/cache.ts:133-139 | a stored empty list is truthy and fills a null ref with `[]` |
| CacheSystem.Next | frontend/composables/partials/cache.ts:19-40 | no step removes a cache or changes its name or key path |
| CacheSystem.FirstVersion | frontend/plugins/cache.ts:4-7 | the version of the first `setVersion` step, which no earlier `setVersion` step precedes, or none when no step supplies one |
| CacheSystem.ConstructAppends | frontend/composables/partials/cache.ts:21-22 | a constructor call appends one new cache, still waiting to open, and leaves the gate and every existing cache as they were |
| CacheSystem.OpenStepOpens | frontend/composables/partials/cache.ts:22-34 | the end of an open request applies that cache's open sequence, under the current gate, to the cache it names and to no other, and leaves the gate as it was |
| CacheSystem.StepsAreLocal | frontend/composables/partials/cache.ts:19-23 | an open, `set` or `setMultiple` step on one cache leaves every other cache and the gate as they were, and adds no cache |
| CacheSystem.SetStepStores | frontend/composables/partials/cache.ts:46-50 | a `set` step on an open cache with a key not yet stored makes the record readable from that cache under its key |
| CacheSystem.SetMultipleStepStores | frontend/composables/partials/cache.ts:52-61 | a `setMultiple` step on an open cache with distinct, fresh keys makes every entry readable from that cache under its key |
| CacheSystem.GateAfterRun | frontend/composables/partials/cache.ts:14-17 | after any run, a resolved gate is unchanged, and a pending gate holds the first version supplied or stays pending |
| CacheSystem.OpensAtFirstVersion | frontend/composables/partials/cache.ts:22-23 | from module load, every cache that opens does so at the first version supplied, and with no version every cache is still waiting |
| CacheSystem.NoReadsBeforeVersion | frontend/composables/partials/cache.ts:42-44 | before any `setVersion`, `get` and `getAll` of every cache give undefined |
| CacheSystem.ConnectionsOnlyMoveForward | frontend/composables/partials/cache.ts:19-34 | an open connection stays open at the same version and a failed one stays failed; no cache is removed or renamed |
| CacheSystem.NextKeepsGated | frontend/composables/partials/cache.ts:22-23 | every step keeps the invariant that a cache only leaves the waiting state after the gate resolves, and opens at the gate's version |
| CacheSystem.RunKeepsValid | frontend/composables/partials/cache.ts:27-33 | along any run of plausible events, every open connection holds its store with its key path, in key order |
| Scenarios.RecipeCacheBeforeVersion | frontend/composables/recipes/recipe-cache.ts:4 | the recipe cache, read before `setVersion`, gives undefined for `get("abc")` |
| Scenarios.LabelsBatchThenGetAll | frontend/composables/store/use-label-store.ts:8 | after version 3, the `labels` cache opened on a new database and a batch of two labels, `getAll` returns both |
| Scenarios.SecondVersionIgnored | frontend/plugins/cache.ts:5-6 | a second `setVersion` with another number does not change the version the cache opens at |

## Left out

- Promise and event-loop scheduling, and `requestWait`: each request is one atomic step that ends in its result. The model has no interleaving between readers and writers. The one race it does model is a ref written by someone else while a fill's lookup is pending, given as the `meanwhile` parameter.
- Failing read requests: in the source, a `get` or `getAll` request that errors rejects its promise, and a fill then leaves the ref as it was. The model's reads always succeed.
- Exceptions thrown by `transaction()` are not modelled: a store missing from an opened database, a connection closed by the engine, and the window after the upgrade handler sets `db` (cache.ts:33) but before the upgrade transaction finishes, in which `transaction()` throws InvalidStateError. The model treats the store as usable as soon as `db` is set. A plain open success is assumed to deliver a database that already holds the cache's store, because only this cache's own upgrade handler creates that database at that version. `CacheSystem.Plausible` states this assumption.
- Which event an open ends with (`success`, `upgradeneeded` or `error`) is an input. The engine's on-disk version comparison is not modelled beyond the rule that an upgrade wipes the store.
- The evaluation of a key path on a record is a function parameter (`keyOf`, or `keyAt` in `CacheSystem`). A record that lacks its key field makes `add` throw in the source; the model has no such case.
- String keys are compared by Unicode scalar value. The Indexed Database API compares UTF-16 code units, which orders differently only when characters outside the Basic Multilingual Plane are compared with characters from U+E000 to U+FFFF.
- Versions are integers. A JavaScript number with a fractional part is truncated by `indexedDB.open`, and NaN or infinity is rejected. Neither is modelled. The accepted range, 1 to 2^53 - 1, is modelled.
- Structured cloning: a stored value is the value given.
- Vue `Ref` reactivity: a ref is a plain `Option` cell.
- The `console.time`, `console.timeEnd` and `console.log` calls carry no semantics.
- The consumers (`use-recipe.ts`, `use-label-store.ts`), the plugin that supplies the version, and the OpenAI ingredient parser (`processor.py`) are not part of this model. The plugin and the recipe and label cache instances appear only as steps in `Scenarios`.
- Cache names are assumed distinct. Each handle holds its own copy of its database. In the source, caches with the same name, and a `MultiCache(n)` beside a `Cache(n, …)`, open the same IndexedDB database. They see each other's writes, and only the first open at a version gets `upgradeneeded`. The model lets such handles diverge and upgrade independently.
- The multi-cache's inner cache is not part of `CacheSystem`'s runs. Its open sequence and writes are the keyed cache's, as `MultiCache.Opened` and `MultiCache.SetMultiple` delegate them.

=== FILE: cache.dfy ===
/**
 * `Cache<T>`: a keyed cache over one IndexedDB object store. The
 * constructor's open sequence is modelled as explicit steps: it waits for
 * the version gate, then the open request ends in success, in an upgrade,
 * or in an error. Until a connection exists every operation is inert:
 * writes change nothing and reads give `undefined` (None).
 *
 * Each request is one atomic step. Records are objects, so every cached
 * value is truthy; an array is truthy even when empty.
 */
module Cache {
  import opened Wrappers
  import opened ObjectStore
  import opened VersionGate

  /** The largest version `indexedDB.open` accepts (2^53 - 1); 0 and negatives are rejected too. */
  const MaxVersion: int := 0x1F_FFFF_FFFF_FFFF

  predicate ValidVersion(v: int)
  {
    1 <= v <= MaxVersion
  }

  /** How the open request ends. */
  datatype OpenEvent<T> =
    | Success(disk: Database<T>)       // already at the requested version: the database as stored
    | UpgradeNeeded(disk: Database<T>) // new, or stored at an older version: the database before the upgrade
    | Error                            // VersionError, a quota error, ...

  /** The private `db` field and where its open sequence stands. */
  datatype Conn<T> =
    | Waiting                                // db undefined, open not yet finished
    | Open(version: int, db: Database<T>)    // db set
    | Failed                                 // db undefined for good

  /** One `Cache<T>` instance: its database and store name, its key path, its connection. */
  datatype Handle<T> = Handle(name: string, keyPath: string, conn: Conn<T>)

  /** A connection is well formed: its database holds the cache's store, with the cache's key path. */
  ghost predicate Valid<T>(h: Handle<T>)
  {
    h.conn.Open? ==>
      && h.name in h.conn.db
      && h.conn.db[h.name].keyPath == h.keyPath
      && ObjectStore.Valid(h.conn.db[h.name])
  }

  /** `new Cache(name, key)`: no connection yet, so nothing can be read. */
  function New<T>(name: string, keyPath: string): (h: Handle<T>)
    ensures Valid(h) && h.name == name && h.keyPath == keyPath
    ensures h.conn == Waiting
    ensures forall k :: Get(h, k) == None
    ensures GetAll(h) == None
  {
    Handle(name, keyPath, Waiting)
  }

  /**
   * The constructor's open sequence, one step: it runs only after the gate
   * has resolved and only while `db` is unset, and it opens the database at
   * the gate's version. A version `indexedDB.open` rejects makes it throw
   * inside the gate's callback, so `db` is never set. The upgrade handler
   * deletes any store of the cache's name and recreates it empty.
   */
  function Opened<T>(h: Handle<T>, g: Gate, ev: OpenEvent<T>): (r: Handle<T>)
    ensures r.name == h.name && r.keyPath == h.keyPath
    ensures !(g.Resolved? && h.conn.Waiting?) ==> r == h
    ensures h.conn.Waiting? && r.conn.Open? ==> g.Resolved? && ValidVersion(g.version) && r.conn.version == g.version
    ensures h.conn.Waiting? && g.Resolved? && !ValidVersion(g.version) ==> r.conn.Failed?
    ensures ev.Error? ==> !r.conn.Open? || r == h
    ensures h.conn.Waiting? && g.Resolved? && ValidVersion(g.version) && ev.Success? ==>
      r.conn == Open(g.version, ev.disk)
    ensures h.conn.Waiting? && g.Resolved? && ev.Error? ==> r.conn.Failed?
    ensures h.conn.Waiting? && g.Resolved? && ValidVersion(g.version) && ev.UpgradeNeeded? ==>
      && r.conn.Open? && Valid(r) && GetAll(r) == Some([])
      && (forall k :: Get(r, k) == None)
      && (forall n :: n != h.name ==> (n in r.conn.db <==> n in ev.disk))
      && (forall n :: n != h.name && n in ev.disk ==> r.conn.db[n] == ev.disk[n])
  {
    if !(g.Resolved? && h.conn.Waiting?) then h
    else if !ValidVersion(g.version) then h.(conn := Failed)
    else
      match ev
      case Success(disk) => h.(conn := Open(g.version, disk))
      case UpgradeNeeded(disk) => h.(conn := Open(g.version, Upgrade(disk, h.name, h.keyPath)))
      case Error => h.(conn := Failed)
  }

  /** The private `store()`: the cache's object store, or None while `db` is unset. */
  function Store<T>(h: Handle<T>): (s: Option<Collection<T>>)
    ensures s.Some? <==> h.conn.Open? && h.name in h.conn.db
    ensures s.Some? ==> s.value == h.conn.db[h.name]
    ensures Valid(h) && h.conn.Open? ==> s.Some? && ObjectStore.Valid(s.value)
  {
    if h.conn.Open? && h.name in h.conn.db then Some(h.conn.db[h.name]) else None
  }

  /** The handle with its store's contents replaced (same database, same connection). */
  function WithStore<T>(h: Handle<T>, c: Collection<T>): (r: Handle<T>)
    requires Store(h).Some?
    ensures Store(r) == Some(c)
    ensures r.name == h.name && r.keyPath == h.keyPath && r.conn.Open? && r.conn.version == h.conn.version
  {
    h.(conn := h.conn.(db := h.conn.db[h.name := c]))
  }

  /**
   * `set(data)`: one `add` in its own read-write transaction, nothing
   * reported back. An unavailable store drops the write; a key already
   * stored fails the `add`, which aborts the transaction and leaves the
   * stored record as it was.
   */
  function Set<T>(h: Handle<T>, keyOf: T -> string, e: T): (r: Handle<T>)
    ensures r.name == h.name && r.keyPath == h.keyPath && r.conn.Open? == h.conn.Open?
    ensures Valid(h) ==> Valid(r)
    ensures Store(h).None? ==> r == h
    ensures Store(h).Some? && Get(h, keyOf(e)).Some? ==> r == h
    ensures Store(h).Some? && Get(h, keyOf(e)).None? ==>
      && Get(r, keyOf(e)) == Some(e)
      && (forall k :: k != keyOf(e) ==> Get(r, k) == Get(h, k))
  {
    match Store(h)
    case None => h
    case Some(c) =>
      match Add(c, keyOf(e), e)
      case Err(_) => h
      case Ok(c') => WithStore(h, c')
  }

  /**
   * `setMultiple(datas)`: every `add` issued in order on one read-write
   * transaction. A failing `add` aborts that transaction, so either all
   * entries are stored or none is.
   */
  function SetMultiple<T>(h: Handle<T>, keyOf: T -> string, es: seq<T>): (r: Handle<T>)
    ensures r.name == h.name && r.keyPath == h.keyPath && r.conn.Open? == h.conn.Open?
    ensures Valid(h) ==> Valid(r)
    ensures Store(h).None? ==> r == h
    ensures Store(h).Some? && !Insertable(Store(h).value, keyOf, es) ==> r == h
  {
    match Store(h)
    case None => h
    case Some(c) =>
      AddAllSucceedsIff(c, keyOf, es);
      match AddAll(c, keyOf, es)
      case Err(_) => h
      case Ok(c') => WithStore(h, c')
  }

  /** `get(key)`: the record stored under `key`; None if the store is unavailable or the key absent. */
  function Get<T>(h: Handle<T>, key: string): (r: Option<T>)
    ensures Store(h).None? ==> r == None
    ensures r.Some? ==> Record(key, r.value) in Store(h).value.records
  {
    match Store(h)
    case None => None
    case Some(c) => Find(c.records, key)
  }

  /** `getAll()`: every stored record, in key order; None if the store is unavailable. */
  function GetAll<T>(h: Handle<T>): (r: Option<seq<T>>)
    ensures r.None? <==> Store(h).None?
    ensures r.Some? ==> |r.value| == |Store(h).value.records|
  {
    match Store(h)
    case None => None
    case Some(c) => Some(Values(c.records))
  }

  /**
   * The guard after a fill's lookup: `now` is what the ref holds when the
   * lookup resolves, `cached` what it found. A found value is assigned only
   * if the ref is still null.
   */
  function CompleteFill<U>(now: Option<U>, cached: Option<U>): Option<U>
  {
    if cached.Some? && now.None? then cached else now
  }

  /**
   * `fillRef(ref, key)`: `ref` is the ref's value when called, `meanwhile`
   * its value when the lookup resolves (another code path may have set it
   * in between). A set ref is left alone without a lookup.
   */
  function FillRef<T>(h: Handle<T>, ref: Option<T>, key: string, meanwhile: Option<T>): (r: Option<T>)
    ensures ref.Some? ==> r == ref
    ensures ref.None? && meanwhile.Some? ==> r == meanwhile
    ensures ref.None? && meanwhile.None? ==> r == Get(h, key)
  {
    if ref.Some? then ref else CompleteFill(meanwhile, Get(h, key))
  }

  /** A ref argument that may itself be null, as `fillAllRef` accepts. */
  datatype NullableRef<T> = NullRef | Ref(value: Option<T>)

  /**
   * `fillAllRef(ref)`: a null ref, or one already set, is left alone;
   * otherwise the ref receives the `getAll` result if there is one and the
   * ref is still null when it arrives. An available but empty store yields
   * an empty array, which is truthy and so fills the ref.
   */
  function FillAllRef<T>(h: Handle<T>, ref: NullableRef<seq<T>>, meanwhile: Option<seq<T>>): (r: NullableRef<seq<T>>)
    ensures ref.NullRef? ==> r == ref
    ensures ref.Ref? && ref.value.Some? ==> r == ref
    ensures ref.Ref? && ref.value.None? ==> r.Ref?
    ensures ref.Ref? && ref.value.None? && meanwhile.Some? ==> r.value == meanwhile
    ensures ref.Ref? && ref.value.None? && meanwhile.None? ==> r == Ref(GetAll(h))
    ensures ref.Ref? && ref.value.None? && meanwhile.None? ==> (r.value.Some? <==> Store(h).Some?)
  {
    match ref
    case NullRef => ref
    case Ref(v) => if v.Some? then ref else Ref(CompleteFill(meanwhile, GetAll(h)))
  }

  /**
   * While `db` is unset (before `setVersion`, while the open is pending, or
   * after it failed) writes change nothing and reads give nothing, so no
   * fill assigns a ref unless another code path already did.
   */
  lemma UnavailableStoreIsInert<T>(h: Handle<T>, keyOf: T -> string, e: T, es: seq<T>, key: string)
    requires !h.conn.Open?
    ensures Set(h, keyOf, e) == h && SetMultiple(h, keyOf, es) == h
    ensures Get(h, key) == None && GetAll(h) == None
    ensures FillRef(h, None, key, None) == None
    ensures FillAllRef(h, Ref(None), None) == Ref(None)
  {
  }

  /**
   * `add` never overwrites: once a key is stored, a later `set` of another
   * record with the same key leaves the first record in place.
   */
  lemma SetNeverReplaces<T>(h: Handle<T>, keyOf: T -> string, first: T, second: T)
    requires Store(h).Some? && Get(h, keyOf(first)) == None && keyOf(second) == keyOf(first)
    ensures Get(Set(Set(h, keyOf, first), keyOf, second), keyOf(first)) == Some(first)
  {
  }

  /** Every stored record is what `get` of its key returns, and `getAll` lists exactly those records in key order. */
  lemma {:induction false} GetAllAgreesWithGet<T>(h: Handle<T>)
    requires Valid(h) && GetAll(h).Some?
    ensures forall i :: 0 <= i < |GetAll(h).value| ==>
      Get(h, Store(h).value.records[i].key) == Some(GetAll(h).value[i])
    ensures forall i, j :: 0 <= i < j < |GetAll(h).value| ==>
      KeyOrder.KeyLess(Store(h).value.records[i].key, Store(h).value.records[j].key)
    ensures forall k :: Get(h, k).Some? ==> Get(h, k).value in GetAll(h).value
  {
    var rs := Store(h).value.records;
    forall i | 0 <= i < |rs| ensures Get(h, rs[i].key) == Some(GetAll(h).value[i]) {
      FindSorted(rs, i);
    }
    forall k | Get(h, k).Some? ensures Get(h, k).value in GetAll(h).value {
      var i :| 0 <= i < |rs| && rs[i] == Record(k, Get(h, k).value);
      assert GetAll(h).value[i] == Get(h, k).value;
    }
  }

  /**
   * A `setMultiple` whose keys are distinct and not yet stored makes each
   * entry readable under its key, keeps every other key as it was, and
   * adds exactly its entries to what `getAll` returns.
   */
  lemma {:induction false} SetMultipleStoresBatch<T>(h: Handle<T>, keyOf: T -> string, es: seq<T>)
    requires Store(h).Some? && Insertable(Store(h).value, keyOf, es)
    ensures forall i :: 0 <= i < |es| ==> Get(SetMultiple(h, keyOf, es), keyOf(es[i])) == Some(es[i])
    ensures forall k :: k !in KeysOf(keyOf, es) ==> Get(SetMultiple(h, keyOf, es), k) == Get(h, k)
    ensures multiset(GetAll(SetMultiple(h, keyOf, es)).value) == multiset(GetAll(h).value) + multiset(es)
  {
    var c := Store(h).value;
    AddAllSucceedsIff(c, keyOf, es);
    var r := SetMultiple(h, keyOf, es);
    assert Store(r) == Some(AddAll(c, keyOf, es).value);
    forall i | 0 <= i < |es| ensures Get(r, keyOf(es[i])) == Some(es[i]) {
      AddAllBinds(c, keyOf, es, i);
    }
    forall k | k !in KeysOf(keyOf, es) ensures Get(r, k) == Get(h, k) {
      AddAllKeepsOthers(c, keyOf, es, k);
    }
    AddAllValues(c, keyOf, es);
  }

  /** On an available, empty store, `setMultiple` of distinct keys followed by `getAll` gives back exactly those entries. */
  lemma SetMultipleThenGetAll<T>(h: Handle<T>, keyOf: T -> string, es: seq<T>)
    requires GetAll(h) == Some([])
    requires forall i, j :: 0 <= i < j < |es| ==> keyOf(es[i]) != keyOf(es[j])
    ensures GetAll(SetMultiple(h, keyOf, es)).Some?
    ensures multiset(GetAll(SetMultiple(h, keyOf, es)).value) == multiset(es)
  {
    SetMultipleStoresBatch(h, keyOf, es);
  }

  /** A batch that repeats a key is rejected as a whole: nothing of it is stored. */
  lemma SetMultipleAllOrNothing<T>(h: Handle<T>, keyOf: T -> string, es: seq<T>, i: nat, j: nat)
    requires Store(h).Some? && i < j < |es| && keyOf(es[i]) == keyOf(es[j])
    ensures SetMultiple(h, keyOf, es) == h
  {
  }

  /**
   * Filling twice is filling once: after a fill (whatever happened to the
   * ref meanwhile), a second fill with no competing write changes nothing.
   */
  lemma FillRefIdempotent<T>(h: Handle<T>, ref: Option<T>, key: string, meanwhile: Option<T>)
    ensures FillRef(h, FillRef(h, ref, key, meanwhile), key, None) == FillRef(h, ref, key, meanwhile)
  {
  }

  lemma FillAllRefIdempotent<T>(h: Handle<T>, ref: NullableRef<seq<T>>, meanwhile: Option<seq<T>>)
    ensures FillAllRef(h, FillAllRef(h, ref, meanwhile), None) == FillAllRef(h, ref, meanwhile)
  {
  }
}

=== FILE: cache_system.dfy ===
/**
 * The whole client: the one version gate shared by every cache, and the
 * caches constructed so far. Each step is one event: a `setVersion` call,
 * a constructor call, the end of one cache's open request, or a write.
 * Reads change nothing and are asked of the resulting caches.
 */
module CacheSystem {
  import opened Wrappers
  import opened VersionGate
  import ObjectStore
  import Cache

  datatype System<T> = System(gate: Gate, caches: seq<Cache.Handle<T>>)

  datatype Step<T> =
    | SupplyVersion(version: int)
    | Construct(name: string, keyPath: string)
    | OpenEnds(index: nat, event: Cache.OpenEvent<T>)
    | Set(index: nat, entry: T)
    | SetMultiple(index: nat, entries: seq<T>)

  /** Module load: the gate pending, no cache yet. */
  function Init<T>(): System<T>
  {
    System(Pending, [])
  }

  /** A cache's key path evaluated on a record, as `keyAt(keyPath, record)`. */
  function KeyOf<T>(keyAt: (string, T) -> string, keyPath: string): T -> string
  {
    x => keyAt(keyPath, x)
  }

  /** One event. A step naming a cache that does not exist changes nothing. */
  function Next<T>(s: System<T>, step: Step<T>, keyAt: (string, T) -> string): (r: System<T>)
    ensures |r.caches| >= |s.caches|
    ensures forall i :: 0 <= i < |s.caches| ==>
      r.caches[i].name == s.caches[i].name && r.caches[i].keyPath == s.caches[i].keyPath
  {
    match step
    case SupplyVersion(v) =>
      s.(gate := VersionGate.SupplyVersion(s.gate, v))
    case Construct(name, keyPath) =>
      s.(caches := s.caches + [Cache.New(name, keyPath)])
    case OpenEnds(i, ev) =>
      if i < |s.caches| then s.(caches := s.caches[i := Cache.Opened(s.caches[i], s.gate, ev)]) else s
    case Set(i, e) =>
      if i < |s.caches| then
        var h := s.caches[i];
        s.(caches := s.caches[i := Cache.Set(h, KeyOf(keyAt, h.keyPath), e)])
      else s
    case SetMultiple(i, es) =>
      if i < |s.caches| then
        var h := s.caches[i];
        s.(caches := s.caches[i := Cache.SetMultiple(h, KeyOf(keyAt, h.keyPath), es)])
      else s
  }

  /**
   * A step that names a cache touches that cache's database and no other:
   * every other cache is as it was, and no cache is added.
   */
  lemma StepsAreLocal<T>(s: System<T>, step: Step<T>, keyAt: (string, T) -> string, j: nat)
    requires step.OpenEnds? || step.Set? || step.SetMultiple?
    requires j < |s.caches| && j != step.index
    ensures |Next(s, step, keyAt).caches| == |s.caches|
    ensures Next(s, step, keyAt).caches[j] == s.caches[j]
    ensures Next(s, step, keyAt).gate == s.gate
  {
  }

  /** An open event reaches exactly the cache it names, through that cache's open sequence. */
  lemma OpenStepOpens<T>(s: System<T>, i: nat, ev: Cache.OpenEvent<T>, keyAt: (string, T) -> string)
    requires i < |s.caches|
    ensures Next(s, OpenEnds(i, ev), keyAt).caches == s.caches[i := Cache.Opened(s.caches[i], s.gate, ev)]
    ensures Next(s, OpenEnds(i, ev), keyAt).gate == s.gate
  {
  }

  /** A constructor call appends one new, waiting cache and changes nothing else. */
  lemma ConstructAppends<T>(s: System<T>, name: string, keyPath: string, keyAt: (string, T) -> string)
    ensures Next(s, Construct(name, keyPath), keyAt) == System(s.gate, s.caches + [Cache.New(name, keyPath)])
    ensures Next(s, Construct(name, keyPath), keyAt).caches[|s.caches|].conn == Cache.Waiting
  {
  }

  /** A `set` on an open cache with a key not yet stored makes the record readable from that cache. */
  lemma SetStepStores<T>(s: System<T>, i: nat, e: T, keyAt: (string, T) -> string)
    requires i < |s.caches| && Cache.Store(s.caches[i]).Some?
    requires Cache.Get(s.caches[i], keyAt(s.caches[i].keyPath, e)) == None
    ensures Cache.Get(Next(s, Set(i, e), keyAt).caches[i], keyAt(s.caches[i].keyPath, e)) == Some(e)
  {
  }

  /** A `setMultiple` step writes its batch through the named cache's own key path. */
  lemma NextSetMultipleAt<T>(s: System<T>, i: nat, es: seq<T>, keyAt: (string, T) -> string)
    requires i < |s.caches|
    ensures Next(s, SetMultiple(i, es), keyAt).caches[i] == Cache.SetMultiple(s.caches[i], KeyOf(keyAt, s.caches[i].keyPath), es)
  {
    var h := s.caches[i];
    assert Next(s, SetMultiple(i, es), keyAt) == s.(caches := s.caches[i := Cache.SetMultiple(h, KeyOf(keyAt, h.keyPath), es)]);
  }

  /** A `setMultiple` on an open cache with distinct, fresh keys makes every entry readable from that cache. */
  lemma SetMultipleStepStores<T>(s: System<T>, i: nat, es: seq<T>, keyAt: (string, T) -> string, k: nat)
    requires i < |s.caches| && Cache.Store(s.caches[i]).Some?
    requires ObjectStore.Insertable(Cache.Store(s.caches[i]).value, KeyOf(keyAt, s.caches[i].keyPath), es)
    requires k < |es|
    ensures Cache.Get(Next(s, SetMultiple(i, es), keyAt).caches[i], keyAt(s.caches[i].keyPath, es[k])) == Some(es[k])
  {
    var h := s.caches[i];
    var keyOf := KeyOf(keyAt, h.keyPath);
    NextSetMultipleAt(s, i, es, keyAt);
    Cache.SetMultipleStoresBatch(h, keyOf, es);
    assert keyOf(es[k]) == keyAt(h.keyPath, es[k]);
  }

  function Run<T>(s: System<T>, steps: seq<Step<T>>, keyAt: (string, T) -> string): System<T>
    decreases |steps|
  {
    if |steps| == 0 then s else Run(Next(s, steps[0], keyAt), steps[1..], keyAt)
  }

  /** The version of the first `setVersion` call among the steps, if any. */
  function FirstVersion<T>(steps: seq<Step<T>>): (r: Option<int>)
    ensures r.Some? ==> exists i :: 0 <= i < |steps| && steps[i] == SupplyVersion(r.value) &&
                                    (forall j :: 0 <= j < i ==> !steps[j].SupplyVersion?)
    ensures r.None? ==> forall i :: 0 <= i < |steps| ==> !steps[i].SupplyVersion?
  {
    if |steps| == 0 then None
    else if steps[0].SupplyVersion? then Some(steps[0].version)
    else
      var r := FirstVersion(steps[1..]);
      assert forall i :: 1 <= i < |steps| ==> steps[i] == steps[1..][i - 1];
      r
  }

  /**
   * The gate the steps leave behind: a resolved gate stays as it is; a
   * pending one takes the first version supplied, and stays pending if
   * none is.
   */
  lemma {:induction false} GateAfterRun<T>(s: System<T>, steps: seq<Step<T>>, keyAt: (string, T) -> string)
    ensures s.gate.Resolved? ==> Run(s, steps, keyAt).gate == s.gate
    ensures s.gate.Pending? && FirstVersion(steps).None? ==> Run(s, steps, keyAt).gate == Pending
    ensures s.gate.Pending? && FirstVersion(steps).Some? ==>
      Run(s, steps, keyAt).gate == Resolved(FirstVersion(steps).value)
    decreases |steps|
  {
    if |steps| > 0 {
      GateAfterRun(Next(s, steps[0], keyAt), steps[1..], keyAt);
    }
  }

  /**
   * Every cache that has left the waiting state did so after the gate
   * resolved, and every open cache opened at the gate's version.
   */
  ghost predicate Gated<T>(s: System<T>)
  {
    forall i :: 0 <= i < |s.caches| ==>
      && (!s.caches[i].conn.Waiting? ==> s.gate.Resolved?)
      && (s.caches[i].conn.Open? ==> s.gate == Resolved(s.caches[i].conn.version))
  }

  lemma NextKeepsGated<T>(s: System<T>, step: Step<T>, keyAt: (string, T) -> string)
    requires Gated(s)
    ensures Gated(Next(s, step, keyAt))
  {
  }

  /** Across any run from module load, every cache that opens does so at the first version supplied. */
  lemma {:induction false} OpensAtFirstVersion<T>(steps: seq<Step<T>>, keyAt: (string, T) -> string)
    ensures forall i :: 0 <= i < |Run(Init(), steps, keyAt).caches| && Run(Init(), steps, keyAt).caches[i].conn.Open? ==>
      FirstVersion(steps) == Some(Run(Init(), steps, keyAt).caches[i].conn.version)
    ensures FirstVersion(steps).None? ==>
      forall i :: 0 <= i < |Run(Init(), steps, keyAt).caches| ==> Run(Init(), steps, keyAt).caches[i].conn.Waiting?
  {
    RunKeepsGated(Init(), steps, keyAt);
    GateAfterRun(Init(), steps, keyAt);
  }

  lemma {:induction false} RunKeepsGated<T>(s: System<T>, steps: seq<Step<T>>, keyAt: (string, T) -> string)
    requires Gated(s)
    ensures Gated(Run(s, steps, keyAt))
    decreases |steps|
  {
    if |steps| > 0 {
      NextKeepsGated(s, steps[0], keyAt);
      RunKeepsGated(Next(s, steps[0], keyAt), steps[1..], keyAt);
    }
  }

  /**
   * Before any `setVersion` call no cache can be read: `get` gives
   * `undefined` for every key and `getAll` gives `undefined`.
   */
  lemma NoReadsBeforeVersion<T>(steps: seq<Step<T>>, keyAt: (string, T) -> string, i: nat, key: string)
    requires FirstVersion(steps).None? && i < |Run(Init(), steps, keyAt).caches|
    ensures Cache.Get(Run(Init(), steps, keyAt).caches[i], key) == None
    ensures Cache.GetAll(Run(Init(), steps, keyAt).caches[i]) == None
  {
    OpensAtFirstVersion(steps, keyAt);
  }

  /**
   * A connection only moves forward: an open cache stays open at the same
   * version, a failed one stays failed, and no cache is ever removed or
   * renamed.
   */
  lemma {:induction false} ConnectionsOnlyMoveForward<T>(s: System<T>, steps: seq<Step<T>>, keyAt: (string, T) -> string, i: nat)
    requires i < |s.caches|
    ensures i < |Run(s, steps, keyAt).caches|
    ensures Run(s, steps, keyAt).caches[i].name == s.caches[i].name
    ensures Run(s, steps, keyAt).caches[i].keyPath == s.caches[i].keyPath
    ensures s.caches[i].conn.Open? ==>
      Run(s, steps, keyAt).caches[i].conn.Open? && Run(s, steps, keyAt).caches[i].conn.version == s.caches[i].conn.version
    ensures s.caches[i].conn.Failed? ==> Run(s, steps, keyAt).caches[i].conn.Failed?
    decreases |steps|
  {
    if |steps| > 0 {
      var s1 := Next(s, steps[0], keyAt);
      assert s.caches[i].conn.Open? ==> s1.caches[i].conn.Open? && s1.caches[i].conn.version == s.caches[i].conn.version;
      assert s.caches[i].conn.Failed? ==> s1.caches[i].conn.Failed?;
      ConnectionsOnlyMoveForward(s1, steps[1..], keyAt, i);
    }
  }

  /**
   * A plain success is only reported for a database already at the
   * requested version, which only this cache's own upgrade handler can
   * have produced: it holds the cache's store, with the cache's key path,
   * in key order.
   */
  ghost predicate Plausible<T>(s: System<T>, step: Step<T>)
  {
    step.OpenEnds? && step.event.Success? && step.index < |s.caches| ==>
      var h := s.caches[step.index];
      var disk := step.event.disk;
      h.name in disk && disk[h.name].keyPath == h.keyPath && ObjectStore.Valid(disk[h.name])
  }

  ghost predicate PlausibleRun<T>(s: System<T>, steps: seq<Step<T>>, keyAt: (string, T) -> string)
    decreases |steps|
  {
    |steps| > 0 ==> Plausible(s, steps[0]) && PlausibleRun(Next(s, steps[0], keyAt), steps[1..], keyAt)
  }

  ghost predicate AllValid<T>(s: System<T>)
  {
    forall i :: 0 <= i < |s.caches| ==> Cache.Valid(s.caches[i])
  }

  lemma NextKeepsValid<T>(s: System<T>, step: Step<T>, keyAt: (string, T) -> string)
    requires AllValid(s) && Plausible(s, step)
    ensures AllValid(Next(s, step, keyAt))
  {
  }

  /** Every cache's connection stays well formed along a run of plausible events. */
  lemma {:induction false} RunKeepsValid<T>(s: System<T>, steps: seq<Step<T>>, keyAt: (string, T) -> string)
    requires AllValid(s) && PlausibleRun(s, steps, keyAt)
    ensures AllValid(Run(s, steps, keyAt))
    decreases |steps|
  {
    if |steps| > 0 {
      NextKeepsValid(s, steps[0], keyAt);
      RunKeepsValid(Next(s, steps[0], keyAt), steps[1..], keyAt);
    }
  }
}

=== FILE: key_order.dfy ===
/**
 * The order the Indexed Database API puts string keys in: two strings are
 * compared element by element, and a proper prefix sorts before the longer
 * string. An object store keeps its records sorted by this order, and
 * `getAll` lists them in it.
 */
module KeyOrder {

  /** `a` sorts strictly before `b`. */
  predicate KeyLess(a: string, b: string)
    decreases |a|
  {
    if |a| == 0 then |b| > 0
    else if |b| == 0 then false
    else if a[0] == b[0] then KeyLess(a[1..], b[1..])
    else a[0] < b[0]
  }

  lemma {:induction false} KeyLessIrreflexive(a: string)
    ensures !KeyLess(a, a)
    decreases |a|
  {
    if |a| > 0 {
      KeyLessIrreflexive(a[1..]);
    }
  }

  lemma {:induction false} KeyLessTransitive(a: string, b: string, c: string)
    requires KeyLess(a, b) && KeyLess(b, c)
    ensures KeyLess(a, c)
    decreases |a|
  {
    if |a| > 0 && |b| > 0 && |c| > 0 && a[0] == b[0] && b[0] == c[0] {
      KeyLessTransitive(a[1..], b[1..], c[1..]);
    }
  }

  /** Any two distinct keys are ordered one way or the other. */
  lemma {:induction false} KeyLessTotal(a: string, b: string)
    requires a != b
    ensures KeyLess(a, b) || KeyLess(b, a)
    decreases |a|
  {
    if |a| > 0 && |b| > 0 && a[0] == b[0] {
      assert a == [a[0]] + a[1..] && b == [b[0]] + b[1..];
      KeyLessTotal(a[1..], b[1..]);
    }
  }

  lemma {:induction false} KeyLessAsymmetric(a: string, b: string)
    requires KeyLess(a, b)
    ensures !KeyLess(b, a)
  {
    if KeyLess(b, a) {
      KeyLessTransitive(a, b, a);
      KeyLessIrreflexive(a);
    }
  }
}

=== FILE: multi_cache.dfy ===
/**
 * `MultiCache<T>`: caches a whole list as one record, the envelope
 * `{ key: "key", data }`, in an inner `Cache` keyed by `key`. Only the
 * bulk operations do anything; the per-key ones are inert.
 */
module MultiCache {
  import opened Wrappers
  import opened ObjectStore
  import opened VersionGate
  import Cache

  /** The key every envelope is stored under. */
  const EnvelopeKey: string := "key"

  /** `MultiCacheValue<T>`: a whole list, wrapped with its fixed key. */
  datatype Envelope<T> = Envelope(key: string, data: seq<T>)

  /** The inner cache's key path `key`, evaluated on an envelope. */
  function KeyOfEnvelope<T>(e: Envelope<T>): string
  {
    e.key
  }

  datatype MultiCache<T> = MultiCache(name: string, single: Cache.Handle<Envelope<T>>)

  /** `new MultiCache(name)`: an inner cache of the same name, keyed by `key`. */
  function New<T>(name: string): (m: MultiCache<T>)
    ensures m.name == name && m.single.name == name && m.single.keyPath == EnvelopeKey
    ensures m.single.conn == Cache.Waiting
    ensures GetAll(m) == None
  {
    MultiCache(name, Cache.New(name, EnvelopeKey))
  }

  /**
   * The inner cache's open sequence, one step. Until it opens there is no
   * list to read, and an upgrade wipes any envelope stored before.
   */
  function Opened<T>(m: MultiCache<T>, g: Gate, ev: Cache.OpenEvent<Envelope<T>>): (r: MultiCache<T>)
    ensures r.name == m.name && r.single.name == m.single.name && r.single.keyPath == m.single.keyPath
    ensures !(g.Resolved? && m.single.conn.Waiting?) ==> r == m
    ensures m.single.conn.Waiting? && r.single.conn.Open? ==>
      g.Resolved? && Cache.ValidVersion(g.version) && r.single.conn.version == g.version
    ensures m.single.conn.Waiting? && g.Resolved? && !Cache.ValidVersion(g.version) ==> r.single.conn.Failed?
    ensures !r.single.conn.Open? ==> GetAll(r) == None
    ensures m.single.conn.Waiting? && g.Resolved? && Cache.ValidVersion(g.version) && ev.UpgradeNeeded? ==>
      Cache.Store(r.single).Some? && GetAll(r) == None
    ensures m.single.conn.Waiting? && g.Resolved? && Cache.ValidVersion(g.version) && ev.Success? ==>
      r.single.conn == Cache.Open(g.version, ev.disk)
    ensures m.single.conn.Waiting? && g.Resolved? && ev.Error? ==> r.single.conn.Failed? && GetAll(r) == None
  {
    m.(single := Cache.Opened(m.single, g, ev))
  }

  /** `set(_)`: does nothing. */
  function Set<T>(m: MultiCache<T>, x: T): MultiCache<T>
  {
    m
  }

  /** `get(_)`: resolves to `undefined`. */
  function Get<T>(m: MultiCache<T>, key: string): Option<T>
  {
    None
  }

  /** `fillRef(_, _)`: resolves to `undefined` and leaves the ref as it is. */
  function FillRef<T>(m: MultiCache<T>, ref: Option<T>, key: string): Option<T>
  {
    ref
  }

  /** `setMultiple(datas)`: one `set` of the envelope holding the whole list. */
  function SetMultiple<T>(m: MultiCache<T>, xs: seq<T>): (r: MultiCache<T>)
    ensures r.name == m.name
    ensures Cache.Valid(m.single) ==> Cache.Valid(r.single)
    ensures Cache.Store(m.single).None? || GetAll(m).Some? ==> r == m
    ensures Cache.Store(m.single).Some? && GetAll(m).None? ==> GetAll(r) == Some(xs)
  {
    m.(single := Cache.Set(m.single, KeyOfEnvelope, Envelope(EnvelopeKey, xs)))
  }

  /** `getAll()`: the list in the stored envelope; None if there is no envelope or no store. */
  function GetAll<T>(m: MultiCache<T>): (r: Option<seq<T>>)
    ensures r.Some? <==> Cache.Get(m.single, EnvelopeKey).Some?
    ensures r.Some? ==> r.value == Cache.Get(m.single, EnvelopeKey).value.data
  {
    match Cache.Get(m.single, EnvelopeKey)
    case None => None
    case Some(e) => Some(e.data)
  }

  /** `fillAllRef(ref)`: the fill-if-empty combinator over this cache's `getAll`. */
  function FillAllRef<T>(m: MultiCache<T>, ref: Cache.NullableRef<seq<T>>, meanwhile: Option<seq<T>>): (r: Cache.NullableRef<seq<T>>)
    ensures ref.NullRef? || ref.value.Some? ==> r == ref
    ensures ref.Ref? && ref.value.None? && meanwhile.Some? ==> r == Cache.Ref(meanwhile)
    ensures ref.Ref? && ref.value.None? && meanwhile.None? ==> r == Cache.Ref(GetAll(m))
  {
    match ref
    case NullRef => ref
    case Ref(v) => if v.Some? then ref else Cache.Ref(Cache.CompleteFill(meanwhile, GetAll(m)))
  }

  /** The per-key operations never store, find or fill anything, whatever the state. */
  lemma PerKeyOperationsAreInert<T>(m: MultiCache<T>, x: T, key: string, ref: Option<T>)
    ensures Set(m, x) == m
    ensures Get(m, key) == None
    ensures FillRef(m, ref, key) == ref
  {
  }

  /** With a store available and no envelope yet, `setMultiple` then `getAll` gives back the list. */
  lemma EnvelopeRoundTrip<T>(m: MultiCache<T>, xs: seq<T>)
    requires Cache.Store(m.single).Some? && GetAll(m) == None
    ensures GetAll(SetMultiple(m, xs)) == Some(xs)
  {
  }

  /**
   * A second `setMultiple` is an `add` on the key `"key"`, which is
   * already stored: it fails and the first list stays.
   */
  lemma SecondSetMultipleKeepsFirst<T>(m: MultiCache<T>, xs: seq<T>, ys: seq<T>)
    requires Cache.Store(m.single).Some? && GetAll(m) == None
    ensures GetAll(SetMultiple(SetMultiple(m, xs), ys)) == Some(xs)
  {
  }

  /** Before any envelope is stored, `fillAllRef` on a null ref leaves it null. */
  lemma FillAllRefWithoutEnvelope<T>(m: MultiCache<T>)
    requires GetAll(m) == None
    ensures FillAllRef(m, Cache.Ref(None), None) == Cache.Ref(None)
  {
  }

  /** A stored empty list is still an array, which is truthy: it fills a null ref with `[]`. */
  lemma EmptyListFillsRef<T>(m: MultiCache<T>)
    requires Cache.Store(m.single).Some? && GetAll(m) == None
    ensures FillAllRef(SetMultiple(m, []), Cache.Ref(None), None) == Cache.Ref(Some([]))
  {
  }
}

=== FILE: object_store.dfy ===
/**
 * An abstract IndexedDB database: named object stores, each a list of
 * records sorted by key. Only the operations the cache uses are modelled:
 * the no-overwrite `add`, a batch of `add`s in one transaction, lookup by
 * key, listing every value, and the upgrade handler's delete-and-recreate.
 */
module ObjectStore {
  import opened Wrappers
  import opened KeyOrder

  /** One stored record: the key its key path yields, and the value. */
  datatype Record<T> = Record(key: string, value: T)

  /** An object store: its key path and its records in key order. */
  datatype Collection<T> = Collection(keyPath: string, records: seq<Record<T>>)

  /** The one request failure the cache can run into: `add` of a key already stored. */
  datatype StoreError = ConstraintError

  /** A database: its object stores, by name. */
  type Database<T> = map<string, Collection<T>>

  /** Records strictly ascending by key, hence no key twice. */
  ghost predicate Sorted<T>(rs: seq<Record<T>>)
  {
    forall i, j :: 0 <= i < j < |rs| ==> KeyLess(rs[i].key, rs[j].key)
  }

  ghost predicate Valid<T>(c: Collection<T>)
  {
    Sorted(c.records)
  }

  function Empty<T>(keyPath: string): (c: Collection<T>)
    ensures Valid(c) && c.keyPath == keyPath
    ensures forall k :: Find(c.records, k) == None
  {
    Collection(keyPath, [])
  }

  /** Lookup by key: the value stored under `k`, if any. */
  function Find<T>(rs: seq<Record<T>>, k: string): (r: Option<T>)
    ensures r.Some? ==> Record(k, r.value) in rs
  {
    if |rs| == 0 then None
    else if rs[0].key == k then Some(rs[0].value)
    else Find(rs[1..], k)
  }

  predicate HasKey<T>(rs: seq<Record<T>>, k: string)
  {
    Find(rs, k).Some?
  }

  /** In a sorted list, every record is what a lookup of its key finds. */
  lemma {:induction false} FindSorted<T>(rs: seq<Record<T>>, i: nat)
    requires Sorted(rs) && i < |rs|
    ensures Find(rs, rs[i].key) == Some(rs[i].value)
  {
    if i > 0 {
      assert KeyLess(rs[0].key, rs[i].key);
      if rs[0].key == rs[i].key {
        KeyLessIrreflexive(rs[0].key);
      }
      SortedTail(rs);
      FindSorted(rs[1..], i - 1);
    }
  }

  /** The stored values, in key order. */
  function Values<T>(rs: seq<Record<T>>): (vs: seq<T>)
    ensures |vs| == |rs|
    ensures forall i :: 0 <= i < |rs| ==> vs[i] == rs[i].value
  {
    if |rs| == 0 then [] else [rs[0].value] + Values(rs[1..])
  }

  /** Places `r` before the first record whose key sorts after its own. */
  function Insert<T>(rs: seq<Record<T>>, r: Record<T>): (out: seq<Record<T>>)
    ensures |out| == |rs| + 1
    ensures r in out
    ensures forall i :: 0 <= i < |rs| ==> rs[i] in out
    ensures forall i :: 0 <= i < |out| ==> out[i] in rs || out[i] == r
  {
    if |rs| == 0 then [r]
    else if KeyLess(r.key, rs[0].key) then [r] + rs
    else
      var out := [rs[0]] + Insert(rs[1..], r);
      assert forall i :: 1 <= i < |rs| ==> rs[i] == rs[1..][i - 1];
      out
  }

  lemma SortedTail<T>(rs: seq<Record<T>>)
    requires Sorted(rs) && |rs| > 0
    ensures Sorted(rs[1..])
  {
    forall a, b | 0 <= a < b < |rs[1..]|
      ensures KeyLess(rs[1..][a].key, rs[1..][b].key)
    {
      assert rs[1..][a] == rs[a + 1] && rs[1..][b] == rs[b + 1];
    }
  }

  /** Every record of `rs` has a key sorting after `k`. */
  ghost predicate AllAfter<T>(k: string, rs: seq<Record<T>>)
  {
    forall i :: 0 <= i < |rs| ==> KeyLess(k, rs[i].key)
  }

  lemma SortedCons<T>(rs: seq<Record<T>>)
    requires |rs| > 0
    ensures Sorted(rs) <==> AllAfter(rs[0].key, rs[1..]) && Sorted(rs[1..])
  {
    if AllAfter(rs[0].key, rs[1..]) && Sorted(rs[1..]) {
      forall i, j | 0 <= i < j < |rs| ensures KeyLess(rs[i].key, rs[j].key) {
        if i == 0 {
          assert rs[j] == rs[1..][j - 1];
        } else {
          assert rs[i] == rs[1..][i - 1] && rs[j] == rs[1..][j - 1];
        }
      }
    }
    if Sorted(rs) {
      SortedTail(rs);
    }
  }

  lemma InsertAfter<T>(rs: seq<Record<T>>, r: Record<T>, k: string)
    requires AllAfter(k, rs) && KeyLess(k, r.key)
    ensures AllAfter(k, Insert(rs, r))
  {
    var out := Insert(rs, r);
    forall j | 0 <= j < |out| ensures KeyLess(k, out[j].key) {
      if out[j] != r {
        var m :| 0 <= m < |rs| && rs[m] == out[j];
      }
    }
  }

  /** Inserting a key not yet stored keeps the records in key order. */
  lemma {:induction false} InsertSorted<T>(rs: seq<Record<T>>, r: Record<T>)
    requires Sorted(rs) && !HasKey(rs, r.key)
    ensures Sorted(Insert(rs, r))
  {
    if |rs| == 0 {
    } else if KeyLess(r.key, rs[0].key) {
      var out := [r] + rs;
      assert out[1..] == rs;
      forall j | 0 <= j < |rs| ensures KeyLess(r.key, rs[j].key) {
        if j > 0 {
          KeyLessTransitive(r.key, rs[0].key, rs[j].key);
        }
      }
      SortedCons(out);
    } else {
      SortedCons(rs);
      assert rs[0].key != r.key;
      InsertSorted(rs[1..], r);
      KeyLessTotal(rs[0].key, r.key);
      InsertAfter(rs[1..], r, rs[0].key);
      var out := [rs[0]] + Insert(rs[1..], r);
      assert out[1..] == Insert(rs[1..], r);
      SortedCons(out);
    }
  }

  /** Inserting adds exactly the new value to the multiset of stored values. */
  lemma {:induction false} InsertValues<T>(rs: seq<Record<T>>, r: Record<T>)
    ensures multiset(Values(Insert(rs, r))) == multiset(Values(rs)) + multiset{r.value}
  {
    if |rs| == 0 {
    } else if KeyLess(r.key, rs[0].key) {
      assert Values(Insert(rs, r)) == [r.value] + Values(rs);
    } else {
      InsertValues(rs[1..], r);
      assert Values(Insert(rs, r)) == [rs[0].value] + Values(Insert(rs[1..], r));
      assert Values(rs) == [rs[0].value] + Values(rs[1..]);
    }
  }

  /** Inserting a fresh key binds exactly that key; every other lookup is unchanged. */
  lemma {:induction false} FindInsert<T>(rs: seq<Record<T>>, r: Record<T>, k: string)
    requires !HasKey(rs, r.key)
    ensures Find(Insert(rs, r), k) == if k == r.key then Some(r.value) else Find(rs, k)
  {
    if |rs| > 0 && !KeyLess(r.key, rs[0].key) {
      FindInsert(rs[1..], r, k);
    }
  }

  /**
   * The object store storage operation with the no-overwrite flag `add`
   * sets: a key already present fails the request with ConstraintError and
   * stores nothing; a fresh key gains exactly one binding.
   */
  function Add<T>(c: Collection<T>, k: string, v: T): (r: Result<Collection<T>, StoreError>)
    ensures r.Err? <==> HasKey(c.records, k)
    ensures r.Ok? ==> r.value.keyPath == c.keyPath
    ensures r.Ok? ==> Find(r.value.records, k) == Some(v)
    ensures r.Ok? ==> forall k' :: k' != k ==> Find(r.value.records, k') == Find(c.records, k')
    ensures r.Ok? ==> multiset(Values(r.value.records)) == multiset(Values(c.records)) + multiset{v}
    ensures r.Ok? && Valid(c) ==> Valid(r.value)
  {
    if HasKey(c.records, k) then Err(ConstraintError)
    else
      var out := Insert(c.records, Record(k, v));
      InsertValues(c.records, Record(k, v));
      assert Valid(c) ==> Sorted(out) by {
        if Valid(c) {
          InsertSorted(c.records, Record(k, v));
        }
      }
      assert forall k' :: Find(out, k') == if k' == k then Some(v) else Find(c.records, k') by {
        forall k' ensures Find(out, k') == if k' == k then Some(v) else Find(c.records, k') {
          FindInsert(c.records, Record(k, v), k');
        }
      }
      Ok(Collection(c.keyPath, out))
  }

  /** The keys a batch of entries would be stored under. */
  function KeysOf<T>(keyOf: T -> string, xs: seq<T>): (ks: seq<string>)
    ensures |ks| == |xs|
    ensures forall i :: 0 <= i < |xs| ==> ks[i] == keyOf(xs[i])
  {
    seq(|xs|, i requires 0 <= i < |xs| => keyOf(xs[i]))
  }

  /** Every entry of the batch has a key of its own, and none is stored yet. */
  ghost predicate Insertable<T>(c: Collection<T>, keyOf: T -> string, xs: seq<T>)
  {
    && (forall i, j :: 0 <= i < j < |xs| ==> keyOf(xs[i]) != keyOf(xs[j]))
    && (forall i :: 0 <= i < |xs| ==> !HasKey(c.records, keyOf(xs[i])))
  }

  /**
   * A batch of `add`s issued in order against one transaction. The first
   * failing request aborts the transaction, so either every entry is stored
   * or none is.
   */
  function AddAll<T>(c: Collection<T>, keyOf: T -> string, xs: seq<T>): (r: Result<Collection<T>, StoreError>)
    ensures r.Ok? ==> r.value.keyPath == c.keyPath
    ensures r.Ok? ==> |r.value.records| == |c.records| + |xs|
    ensures r.Ok? && Valid(c) ==> Valid(r.value)
    decreases |xs|
  {
    if |xs| == 0 then Ok(c)
    else
      match Add(c, keyOf(xs[0]), xs[0])
      case Err(e) => Err(e)
      case Ok(c1) => AddAll(c1, keyOf, xs[1..])
  }

  /** After a successful first `add`, the rest of the batch faces the same freshness condition. */
  lemma InsertableStep<T>(c: Collection<T>, c1: Collection<T>, keyOf: T -> string, xs: seq<T>)
    requires |xs| > 0 && Add(c, keyOf(xs[0]), xs[0]) == Ok(c1)
    ensures Insertable(c, keyOf, xs) <==> Insertable(c1, keyOf, xs[1..])
  {
    if Insertable(c, keyOf, xs) {
      InsertableRest(c, c1, keyOf, xs);
    }
    if Insertable(c1, keyOf, xs[1..]) {
      InsertableWhole(c, c1, keyOf, xs);
    }
  }

  lemma InsertableRest<T>(c: Collection<T>, c1: Collection<T>, keyOf: T -> string, xs: seq<T>)
    requires |xs| > 0 && Add(c, keyOf(xs[0]), xs[0]) == Ok(c1) && Insertable(c, keyOf, xs)
    ensures Insertable(c1, keyOf, xs[1..])
  {
    forall i | 0 <= i < |xs[1..]| ensures !HasKey(c1.records, keyOf(xs[1..][i])) {
      assert xs[1..][i] == xs[i + 1];
      assert keyOf(xs[0]) != keyOf(xs[i + 1]);
    }
    forall i, j | 0 <= i < j < |xs[1..]| ensures keyOf(xs[1..][i]) != keyOf(xs[1..][j]) {
      assert xs[1..][i] == xs[i + 1] && xs[1..][j] == xs[j + 1];
    }
  }

  lemma InsertableWhole<T>(c: Collection<T>, c1: Collection<T>, keyOf: T -> string, xs: seq<T>)
    requires |xs| > 0 && Add(c, keyOf(xs[0]), xs[0]) == Ok(c1) && Insertable(c1, keyOf, xs[1..])
    ensures Insertable(c, keyOf, xs)
  {
    assert HasKey(c1.records, keyOf(xs[0]));
    forall i, j | 0 <= i < j < |xs| ensures keyOf(xs[i]) != keyOf(xs[j]) {
      if i == 0 {
        assert xs[j] == xs[1..][j - 1];
      } else {
        assert xs[i] == xs[1..][i - 1] && xs[j] == xs[1..][j - 1];
      }
    }
    forall i | 0 <= i < |xs| ensures !HasKey(c.records, keyOf(xs[i])) {
      if i > 0 {
        assert xs[i] == xs[1..][i - 1];
      }
    }
  }

  /** A batch succeeds exactly when its keys are distinct and all fresh. */
  lemma {:induction false} AddAllSucceedsIff<T>(c: Collection<T>, keyOf: T -> string, xs: seq<T>)
    ensures AddAll(c, keyOf, xs).Ok? <==> Insertable(c, keyOf, xs)
    decreases |xs|
  {
    if |xs| > 0 {
      match Add(c, keyOf(xs[0]), xs[0])
      case Err(_) => {
      }
      case Ok(c1) => {
        AddAllSucceedsIff(c1, keyOf, xs[1..]);
        InsertableStep(c, c1, keyOf, xs);
      }
    }
  }

  /** A successful batch leaves every key outside the batch as it was. */
  lemma {:induction false} AddAllKeepsOthers<T>(c: Collection<T>, keyOf: T -> string, xs: seq<T>, k: string)
    requires AddAll(c, keyOf, xs).Ok? && k !in KeysOf(keyOf, xs)
    ensures Find(AddAll(c, keyOf, xs).value.records, k) == Find(c.records, k)
    decreases |xs|
  {
    if |xs| > 0 {
      var c1 := Add(c, keyOf(xs[0]), xs[0]).value;
      assert k != KeysOf(keyOf, xs)[0];
      forall j | 0 <= j < |xs| - 1 ensures KeysOf(keyOf, xs[1..])[j] != k {
        assert KeysOf(keyOf, xs[1..])[j] == KeysOf(keyOf, xs)[j + 1];
      }
      AddAllKeepsOthers(c1, keyOf, xs[1..], k);
    }
  }

  /** The first entry of a successful batch is not overwritten by the rest of it. */
  lemma AddAllBindsFirst<T>(c: Collection<T>, keyOf: T -> string, xs: seq<T>)
    requires |xs| > 0 && AddAll(c, keyOf, xs).Ok?
    ensures Find(AddAll(c, keyOf, xs).value.records, keyOf(xs[0])) == Some(xs[0])
  {
    var c1 := Add(c, keyOf(xs[0]), xs[0]).value;
    assert AddAll(c, keyOf, xs) == AddAll(c1, keyOf, xs[1..]);
    AddAllSucceedsIff(c1, keyOf, xs[1..]);
    forall j | 0 <= j < |xs| - 1 ensures KeysOf(keyOf, xs[1..])[j] != keyOf(xs[0]) {
      assert !HasKey(c1.records, keyOf(xs[1..][j]));
    }
    AddAllKeepsOthers(c1, keyOf, xs[1..], keyOf(xs[0]));
  }

  /** A successful batch binds each of its entries under that entry's key. */
  lemma {:induction false} AddAllBinds<T>(c: Collection<T>, keyOf: T -> string, xs: seq<T>, i: nat)
    requires AddAll(c, keyOf, xs).Ok? && i < |xs|
    ensures Find(AddAll(c, keyOf, xs).value.records, keyOf(xs[i])) == Some(xs[i])
    decreases |xs|, 1
  {
    if i == 0 {
      AddAllBindsFirst(c, keyOf, xs);
    } else {
      AddAllBindsLater(c, keyOf, xs, i);
    }
  }

  /** An entry after the first is bound by the rest of the batch. */
  lemma {:induction false} AddAllBindsLater<T>(c: Collection<T>, keyOf: T -> string, xs: seq<T>, i: nat)
    requires AddAll(c, keyOf, xs).Ok? && 0 < i < |xs|
    ensures Find(AddAll(c, keyOf, xs).value.records, keyOf(xs[i])) == Some(xs[i])
    decreases |xs|, 0
  {
    var c1 := Add(c, keyOf(xs[0]), xs[0]).value;
    assert AddAll(c, keyOf, xs) == AddAll(c1, keyOf, xs[1..]);
    assert xs[i] == xs[1..][i - 1];
    AddAllBinds(c1, keyOf, xs[1..], i - 1);
  }

  /** A successful batch adds exactly its entries to the multiset of stored values. */
  lemma {:induction false} AddAllValues<T>(c: Collection<T>, keyOf: T -> string, xs: seq<T>)
    requires AddAll(c, keyOf, xs).Ok?
    ensures multiset(Values(AddAll(c, keyOf, xs).value.records)) == multiset(Values(c.records)) + multiset(xs)
    decreases |xs|
  {
    if |xs| > 0 {
      var c1 := Add(c, keyOf(xs[0]), xs[0]).value;
      var r := AddAll(c1, keyOf, xs[1..]).value;
      assert AddAll(c, keyOf, xs).value == r;
      AddAllValues(c1, keyOf, xs[1..]);
      MultisetCons(xs);
    }
  }

  lemma MultisetCons<T>(xs: seq<T>)
    requires |xs| > 0
    ensures multiset(xs) == multiset{xs[0]} + multiset(xs[1..])
  {
    assert xs == [xs[0]] + xs[1..];
  }

  /**
   * The upgrade handler's schema change: delete the store of that name if
   * the database holds one, then create it afresh, empty, with the given
   * key path. Every other store is left alone.
   */
  function Upgrade<T>(db: Database<T>, name: string, keyPath: string): (r: Database<T>)
    ensures name in r && Valid(r[name]) && r[name].keyPath == keyPath
    ensures forall k :: !HasKey(r[name].records, k)
    ensures forall n :: n != name ==> (n in r <==> n in db)
    ensures forall n :: n != name && n in db ==> r[n] == db[n]
  {
    var cleared := if name in db then db - {name} else db;
    cleared[name := Empty(keyPath)]
  }
}

=== FILE: scenarios.dfy ===
/**
 * Concrete runs of the client: the recipe cache read before the version
 * arrives, and the label cache filled in one batch after it.
 */
module Scenarios {
  import opened Wrappers
  import opened CacheSystem
  import opened VersionGate
  import Cache
  import ObjectStore
  import KeyOrder

  /** A label record, keyed by `id`. */
  datatype Label = Label(id: string, name: string)

  /**
   * The label cache's key path `id`, evaluated on a label. The recipe cache
   * is typed over labels only so that both caches share one system's record
   * type; it is never written, so its key path `slug` is never evaluated.
   */
  function LabelKeyAt(keyPath: string, l: Label): string
  {
    if keyPath == "id" then l.id else l.name
  }

  /** `recipeCache` is constructed at module load, before `setVersion`: `get("abc")` gives `undefined`. */
  lemma RecipeCacheBeforeVersion()
    ensures Cache.Get(Run(Init(), [Construct("recipeCache", "slug")], LabelKeyAt).caches[0], "abc") == None
  {
    NoReadsBeforeVersion([Construct("recipeCache", "slug")], LabelKeyAt, 0, "abc");
  }

  /** The four steps one at a time. */
  lemma RunOfFour<T>(s: System<T>, a: Step<T>, b: Step<T>, c: Step<T>, d: Step<T>, keyAt: (string, T) -> string)
    ensures Run(s, [a, b, c, d], keyAt) == Next(Next(Next(Next(s, a, keyAt), b, keyAt), c, keyAt), d, keyAt)
  {
    assert [a, b, c, d][1..] == [b, c, d];
    assert [b, c, d][1..] == [c, d];
    assert [c, d][1..] == [d];
    assert [d][1..] == [];
    var s1 := Next(s, a, keyAt);
    var s2 := Next(s1, b, keyAt);
    var s3 := Next(s2, c, keyAt);
    calc {
      Run(s, [a, b, c, d], keyAt);
      Run(s1, [b, c, d], keyAt);
      Run(s2, [c, d], keyAt);
      Run(s3, [d], keyAt);
      Run(Next(s3, d, keyAt), [], keyAt);
    }
  }

  /** The open `labels` cache. */
  function LabelsOpen(): Cache.Handle<Label>
  {
    Cache.Handle("labels", "id", Cache.Open(3, map["labels" := ObjectStore.Empty("id")]))
  }

  lemma LabelSteps123()
    ensures Next(Init(), SupplyVersion(3), LabelKeyAt) == System(Resolved(3), [])
    ensures Next(System(Resolved(3), []), Construct("labels", "id"), LabelKeyAt)
      == System(Resolved(3), [Cache.New("labels", "id")])
    ensures Next(System(Resolved(3), [Cache.New("labels", "id")]), OpenEnds(0, Cache.UpgradeNeeded(map[])), LabelKeyAt)
      == System(Resolved(3), [LabelsOpen()])
  {
  }

  lemma LabelStep4()
    ensures Next(System(Resolved(3), [LabelsOpen()]), SetMultiple(0, [Label("1", "A"), Label("2", "B")]), LabelKeyAt)
      == System(Resolved(3), [Cache.SetMultiple(LabelsOpen(), KeyOf(LabelKeyAt, "id"), [Label("1", "A"), Label("2", "B")])])
  {
    NextSetMultiple(System(Resolved(3), [LabelsOpen()]), [Label("1", "A"), Label("2", "B")], LabelKeyAt);
  }

  /** A batch written to the only cache of a system. */
  lemma NextSetMultiple<T>(s: System<T>, es: seq<T>, keyAt: (string, T) -> string)
    requires |s.caches| == 1
    ensures Next(s, SetMultiple(0, es), keyAt)
      == System(s.gate, [Cache.SetMultiple(s.caches[0], KeyOf(keyAt, s.caches[0].keyPath), es)])
  {
  }

  /** The events of the label scenario: version 3, the `labels` cache, a new database, one batch. */
  function LabelSteps(): seq<Step<Label>>
  {
    [
      SupplyVersion(3),
      Construct("labels", "id"),
      OpenEnds(0, Cache.UpgradeNeeded(map[])),
      SetMultiple(0, [Label("1", "A"), Label("2", "B")])
    ]
  }

  /** The label scenario leaves one cache: the freshly upgraded store after the batch. */
  lemma LabelsRun()
    ensures Run(Init(), LabelSteps(), LabelKeyAt).caches
      == [Cache.SetMultiple(LabelsOpen(), KeyOf(LabelKeyAt, "id"), [Label("1", "A"), Label("2", "B")])]
  {
    var steps := LabelSteps();
    RunOfFour(Init(), steps[0], steps[1], steps[2], steps[3], LabelKeyAt);
    LabelSteps123();
    LabelStep4();
  }

  /** The batch's keys are distinct: `"1"` and `"2"`. */
  lemma LabelBatchKeysDistinct()
    ensures forall i, j :: 0 <= i < j < 2 ==>
      KeyOf(LabelKeyAt, "id")([Label("1", "A"), Label("2", "B")][i]) != KeyOf(LabelKeyAt, "id")([Label("1", "A"), Label("2", "B")][j])
  {
    var batch := [Label("1", "A"), Label("2", "B")];
    var keyOf := KeyOf(LabelKeyAt, "id");
    assert keyOf(batch[0]) == LabelKeyAt("id", batch[0]) == "1";
    assert keyOf(batch[1]) == LabelKeyAt("id", batch[1]) == "2";
    assert "1"[0] != "2"[0];
  }

  /** The batch on the open, empty `labels` store leaves both labels to `getAll`. */
  lemma LabelsStored()
    ensures Cache.GetAll(Cache.SetMultiple(LabelsOpen(), KeyOf(LabelKeyAt, "id"), [Label("1", "A"), Label("2", "B")])).Some?
    ensures multiset(Cache.GetAll(Cache.SetMultiple(LabelsOpen(), KeyOf(LabelKeyAt, "id"), [Label("1", "A"), Label("2", "B")])).value)
      == multiset{Label("1", "A"), Label("2", "B")}
  {
    LabelBatchKeysDistinct();
    Cache.SetMultipleThenGetAll(LabelsOpen(), KeyOf(LabelKeyAt, "id"), [Label("1", "A"), Label("2", "B")]);
  }

  /**
   * Version 3 is supplied, the `labels` cache keyed by `id` is created and
   * opened on a new database, and two labels are stored in one batch:
   * `getAll` returns both.
   */
  lemma LabelsBatchThenGetAll()
    ensures Run(Init(), LabelSteps(), LabelKeyAt).caches[0].conn.Open?
    ensures Run(Init(), LabelSteps(), LabelKeyAt).caches[0].conn.version == 3
    ensures Cache.GetAll(Run(Init(), LabelSteps(), LabelKeyAt).caches[0]).Some?
    ensures multiset(Cache.GetAll(Run(Init(), LabelSteps(), LabelKeyAt).caches[0]).value)
      == multiset{Label("1", "A"), Label("2", "B")}
  {
    LabelsRun();
    LabelsStored();
  }

  /** A second `setVersion` with another number does not change the version the cache opens at. */
  lemma SecondVersionIgnored()
    ensures
      var steps := [
        SupplyVersion(3),
        Construct("labels", "id"),
        SupplyVersion(4),
        OpenEnds(0, Cache.UpgradeNeeded(map[]))
      ];
      var h := Run(Init(), steps, LabelKeyAt).caches[0];
      h.conn.Open? && h.conn.version == 3
  {
  }
}

=== FILE: version_gate.dfy ===
/**
 * The process-wide version gate: the static promise every cache awaits
 * before opening its database. It starts pending; `Cache.setVersion`
 * resolves it, and a settled promise ignores every later resolution.
 */
module VersionGate {

  datatype Gate = Pending | Resolved(version: int)

  /** `Cache.setVersion(v)`: calls the stored resolver with `v`. */
  function SupplyVersion(g: Gate, v: int): (r: Gate)
    ensures r.Resolved?
    ensures g.Resolved? ==> r == g
    ensures g.Pending? ==> r.version == v
  {
    if g.Pending? then Resolved(v) else g
  }

  /** Several `setVersion` calls in a row, earliest first. */
  function SupplyAll(g: Gate, vs: seq<int>): (r: Gate)
    ensures |vs| > 0 ==> r.Resolved?
    decreases |vs|
  {
    if |vs| == 0 then g else SupplyAll(SupplyVersion(g, vs[0]), vs[1..])
  }

  /** Only the first version ever supplied is delivered, whatever follows it. */
  lemma {:induction false} FirstVersionWins(vs: seq<int>)
    requires |vs| > 0
    ensures SupplyAll(Pending, vs) == Resolved(vs[0])
  {
    SettledGateIgnoresSupply(Resolved(vs[0]), vs[1..]);
  }

  /** A resolved gate never changes again: no call reverts it or replaces its version. */
  lemma {:induction false} SettledGateIgnoresSupply(g: Gate, vs: seq<int>)
    requires g.Resolved?
    ensures SupplyAll(g, vs) == g
    decreases |vs|
  {
    if |vs| > 0 {
      SettledGateIgnoresSupply(SupplyVersion(g, vs[0]), vs[1..]);
    }
  }
}

=== FILE: wrappers.dfy ===
/** Option and Result for the cache model. */
module Wrappers {

  /** A value that may be absent: JavaScript's `T | undefined` (or `T | null` for a ref's value). */
  datatype Option<+T> = None | Some(value: T)

  /** The outcome of a storage request: its result, or the DOMException it fails with. */
  datatype Result<+R, +E> = Ok(value: R) | Err(error: E)
}
